=== FILE: README.md ===
# CPU & memory stress tester — a Dafny model of its core rules

The stress tester (`cpu.py`) starts CPU-burning and memory-churning worker
processes, shows a live dashboard of CPU, memory and temperature while they
run, and shuts every worker down when time is up, on an interrupt or on an
error. Most of the program is operating-system and terminal plumbing. This
project models the parts that are rules and proves properties of them:

- **Argument validation** (`Validation`): the five ordered bound checks of
  `validate_args` and its two warnings, which never reject.
- **Memory-burn bookkeeping** (`MemoryBurn`): the list of one-MiB chunks a
  memory worker holds. Each cycle appends `size_mb` chunks, touches a random
  sample of at most ten, and evicts the oldest `size_mb` once more than
  `2 * size_mb` are held. Chunks are identified by allocation number. Their
  random contents are not modelled. `random.sample` is driven by its draws.
- **Dashboard bars** (`Dashboard`): `int(usage / 5)` full segments followed
  by `20 - int(usage / 5)` empty ones, with Python's `int()` truncation and
  string repetition by a negative count both written out. Also one dashboard
  tick: a bar per core, the memory bar, the temperature lines and one log
  record.
- **Temperature lines** (`Temperature`): the three-way decision of
  `get_temperature_info` between "not supported", "not available" and one
  line per non-zero reading.
- **Process supervision** (`Supervisor`): the two tracked handle lists,
  spawning into them with a possibly failing `start`, and the cleanup
  protocol. Cleanup sends terminate, waits out the grace period, escalates to
  kill, logs any exception and carries on, and always clears both lists. The
  way each worker reacts is an input.
- **The run** (`Orchestrator`): `run_stress_test` and the signal handler as
  a function of the environment's choices. Those choices are which start
  fails, how many loop ticks the clock allows, whether and how the run is cut
  short, and which workers already exited.

`Common` holds `Option`, `Min`/`Max` and `Distinct`. `Py` holds the Python
built-ins whose edge cases matter: `int()` on a float, `str * n`, `s[k:]`
and `range(start, stop, step)`.

Three behaviours of the code worth noting:

- The bars are not clamped to 20 segments. From 105 percent on a bar is
  longer than 20.
- On an interrupt signal the handler cleans up and calls `sys.exit`. The
  resulting `SystemExit` is caught by neither `except` clause of
  `run_stress_test`, so its `finally` clause runs cleanup a second time.
  That second cleanup provably signals nobody.
- The bound of `2 * size_mb` retained chunks holds at cycle boundaries only.
  Within a cycle the worker holds up to `3 * size_mb`.

## Model

| member | source | states |
|---|---|---|
| `Validation.ValidateArgs` | cpu.py:273-290 | Rejects exactly the arguments violating cores>0, time>0, intensity>0, memory_processes>=0, memory_size>0. It names the first violated check in that order. On acceptance it warns about more cores than the host has, and about memory size above 1000 MB when memory processes are requested, and about nothing else. Each warning appears at most once. |
| `Validation.WarningsNeverReject` | cpu.py:286-290 | Valid arguments are accepted whatever the host's core count, so over-subscription never rejects. |
| `Validation.BoundaryExamples` | cpu.py:275-284 | cores=1,time=1,intensity=1,memory_processes=0,memory_size=1 is accepted. cores=0, time=-1, intensity=0, memory_processes=-1 and memory_size=0 are each rejected by their own check. |
| `Py.Trunc` | cpu.py:174 | `int()` of a float truncates toward zero. For non-negative input that is the floor. |
| `Py.Repeat` | cpu.py:175 | `c * n` has max(n, 0) characters, all equal to c. |
| `Py.Drop` | cpu.py:50 | `s[k:]` is the suffix of s without its first k elements, or its last -k elements for negative k. |
| `Py.Range` | cpu.py:38 | `range(start, stop, step)` yields start + i*step for consecutive i. Every value lies in [start, stop), and the count is the least one reaching stop. |
| `MemoryBurn.WritesInBounds` | cpu.py:31-46 | The fill loop writes 1049 offsets and the touch loop 210. All of them lie inside the 1 MiB chunk. |
| `MemoryBurn.Fresh` | cpu.py:35-40 | One allocation round yields exactly max(size_mb, 0) new chunks, numbered consecutively from the allocation counter. |
| `MemoryBurn.Without` | cpu.py:44 | Removing the j-th element keeps every other element in order. |
| `MemoryBurn.WithoutFacts` | cpu.py:44 | Removing an element from a duplicate-free pool leaves a duplicate-free pool. The result lacks the removed element and holds all others. |
| `MemoryBurn.Sample` | cpu.py:43-44 | A sample of k elements drawn from a pool has k elements. All come from the pool, and they are distinct when the pool is. |
| `MemoryBurn.SampleComplete` | cpu.py:44 | Every selection of distinct pool elements is produced by some sequence of draws. The model therefore admits any choice `random.sample` can make. |
| `MemoryBurn.Evict` | cpu.py:49-50 | Above 2*size_mb chunks, exactly the oldest size_mb are dropped and the rest stay in order. At or below it nothing changes. |
| `MemoryBurn.Step` | cpu.py:33-50 | A cycle appends exactly size_mb fresh chunks after the held ones and touches min(10, held) distinct held chunks. It then applies the eviction rule. The touch pass does not change which chunks are kept. |
| `MemoryBurn.Next` | cpu.py:35-50 | A cycle advances the allocation counter by max(size_mb, 0). Every chunk it keeps was either held before or allocated during the cycle. |
| `MemoryBurn.NextPreserves` | cpu.py:35-50 | A cycle keeps the retention invariant: the newest chunks in allocation order, and 0, size_mb or 2*size_mb of them. The peak within the cycle is at most 3*size_mb. |
| `MemoryBurn.SmallMultiples` | cpu.py:49 | The multiples of size_mb up to 2*size_mb are 0, size_mb and 2*size_mb. |
| `MemoryBurn.Run` | cpu.py:33-52 | After any number of cycles from an empty list, every chunk held has already been allocated. |
| `MemoryBurn.RunBounded` | cpu.py:33-52 | After any number n of cycles from an empty list, the worker holds a multiple of size_mb chunks, at most 2*size_mb. It holds exactly min(n, 2)*size_mb of them, the newest ones allocated, in order. |
| `MemoryBurn.RunAllocates` | cpu.py:35-40 | After n cycles exactly n*max(size_mb, 0) chunks have been allocated. |
| `MemoryBurn.RunNonPositiveHoldsNothing` | cpu.py:35-50 | A worker started with size_mb <= 0 never holds a chunk. |
| `Dashboard.Filled` | cpu.py:174 | For a non-negative usage the count is the number of whole 5-percent steps in it. For a negative usage it truncates toward zero: it lies in [usage/5, usage/5 + 1), so it is at most 0. |
| `Dashboard.Bar` | cpu.py:174-175 | Every segment is full or empty, and segment i is full exactly when i < int(usage/5). The length is max(filled, 0) + max(20 - filled, 0), with no clamping. |
| `Dashboard.BarInRange` | cpu.py:174-175 | For usage in [0, 100] the bar has exactly 20 segments. Segment i is full exactly when usage reaches 5*(i+1) percent. |
| `Dashboard.SamplePoints` | cpu.py:174-175 | 0 percent shows 20 empty segments and 100 percent 20 full ones. 45 percent shows 9 full then 11 empty. |
| `Dashboard.BarOverflow` | cpu.py:174-175 | From 100 percent on no empty segment is left. From 105 percent on the bar exceeds 20 segments. |
| `Dashboard.BarNegative` | cpu.py:174-175 | A negative reading shows no full segment. Between -5 and 0 the bar still has 20 segments because int() truncates. |
| `Dashboard.CoreBars` | cpu.py:173-176 | There is one bar per core, in core order. |
| `Dashboard.Render` | cpu.py:145-204 | A failed poll gives the error screen and an error log record. Otherwise the tick shows one bar per core, the memory bar and the temperature lines. It logs the elapsed time, CPU and memory figures it shows, so each tick yields exactly one log record. |
| `Temperature.Pairs` | cpu.py:132-133 | The pairs of a sensor are its entries in order, each tagged with the sensor's name. |
| `Temperature.Flatten` | cpu.py:132-133 | Every pair the nested loops visit is an entry of some sensor, tagged with that sensor's name. |
| `Temperature.LineFor` | cpu.py:134-135 | One entry gives at most one line. It gives a line exactly when its current value is non-zero, and that line is its reading under the sensor's name. |
| `Temperature.Lines` | cpu.py:127-141 | A non-empty mapping gives only non-zero readings. Every other outcome gives exactly one line that is not a reading. "Not supported" appears exactly when the platform lacks the query, the error line exactly when the query raised, and "not available" exactly when the mapping is empty. |
| `Temperature.Readings` | cpu.py:133-135 | Only non-zero readings produce lines, and there are never more lines than readings. |
| `Temperature.ReadingsSnoc` | cpu.py:133-135 | One more reading adds its line, if any, at the end. |
| `Temperature.FlattenSnoc` | cpu.py:132 | The pairs of the first i+1 sensors are the pairs of the first i followed by sensor i's. |
| `Temperature.AppendSensor` | cpu.py:133-135 | The inner loop appends exactly the lines of one sensor's non-zero readings. |
| `Temperature.TemperatureInfo` | cpu.py:125-143 | An unsupported platform gives exactly one "not supported" line. An empty mapping gives exactly one "not available" line. Otherwise the nested loops give the lines of the non-zero readings in iteration order. |
| `Temperature.AllZeroShowsNothing` | cpu.py:132-135 | Readings that are all zero produce no line. A non-empty mapping of zeros therefore yields an empty list. |
| `Temperature.AllNonZeroShowsEach` | cpu.py:132-135 | When all readings are non-zero, each gets its own line, with its sensor name and value, in order. |
| `Temperature.ReadingsAreShownEntries` | cpu.py:132-135 | There are exactly as many lines as non-zero readings. Every line is one of them, and every one of them has a line. |
| `Temperature.SpecialCases` | cpu.py:129-139 | "Not supported" and "supported but empty" are told apart. A non-empty mapping with only zero readings shows no line. |
| `Supervisor.CallsFor` | cpu.py:111-117 | A worker that has exited gets no signal. A live worker gets terminate first. It gets a second signal, kill, exactly when it outlives the grace period or the kill raises. |
| `Supervisor.AllCalls` | cpu.py:110-119 | Walking both lists sends at most two signals per worker. |
| `Supervisor.ErrorCount` | cpu.py:110-119 | The pass logs at most one error per worker. |
| `Supervisor.Settle` | cpu.py:110-119 | After cleanup a worker has exited exactly when it had already exited, or terminate alone or terminate then kill succeeded. |
| `Supervisor.SettleAll` | cpu.py:110-119 | Cleanup settles every handle of both lists, each by its own reaction. |
| `Supervisor.CleanupOf` | cpu.py:106-123 | Cleanup empties both tracked lists. It settles every handle of both lists, CPU workers first, keeping each pid. A worker has exited afterwards exactly when it had already exited or the protocol succeeded on it. At most one error is logged per worker. |
| `Supervisor.CleanupProcesses` | cpu.py:106-123 | One pass over CPU then memory handles sends the signals and counts the logged errors the per-worker protocol prescribes. It then leaves both tracked lists empty, whatever happened. |
| `Supervisor.CleanupIdempotent` | cpu.py:106-123 | After a cleanup nothing is tracked. A second cleanup signals nobody and logs nothing. |
| `Supervisor.OnlyLiveSignalled` | cpu.py:110-111 | Every terminate or kill goes to a worker that was alive when cleanup looked at it. |
| `Supervisor.ExitedNeverSignalled` | cpu.py:110-111 | With distinct process ids, a worker that had already exited receives no signal. |
| `Supervisor.KillOnlyAfterGrace` | cpu.py:113-117 | Every kill comes right after the terminate of the same worker. It goes only to a worker that outlived the grace period. |
| `Supervisor.EveryLiveTerminated` | cpu.py:110-119 | Every live worker is sent terminate, even when the protocol raised on an earlier one. |
| `Supervisor.NoErrorsAllExited` | cpu.py:110-119 | When cleanup logged no error, no worker is left alive. |
| `Supervisor.Pids` | cpu.py:110 | The process ids of the handles, in order. |
| `Supervisor.Spawn` | cpu.py:209-212 | Starting count workers appends count fresh live handles in order. If the k-th start raises, exactly the k started before it are tracked and the failure is reported. |
| `Supervisor.StressCpu` | cpu.py:206-218 | `stress_cpu` keeps the CPU list's handles and appends fresh live handles: exactly `cores` of them when no start fails, otherwise the ones started before the failing start. The memory list is untouched. |
| `Supervisor.StressMemory` | cpu.py:220-232 | `stress_memory` keeps the memory list's handles and appends fresh live handles: exactly `processes` of them when no start fails, otherwise the ones started before the failing start. The CPU list is untouched. |
| `Orchestrator.Refresh` | cpu.py:111 | A worker counts as alive at cleanup unless it exited on its own. |
| `Orchestrator.SignalHandler` | cpu.py:98-104 | The handler's cleanup covers every tracked worker. The `finally` clause then runs a second cleanup that signals nobody and logs nothing. |
| `Orchestrator.Finish` | cpu.py:259-270 | Every way out runs cleanup on the tracked workers and ends with both lists empty. Success is reported only on normal completion. |
| `Orchestrator.Monitor` | cpu.py:254-261 | The loop runs until time is up or an interruption. Success is reported exactly when no interruption came, and then `running` is still set. An interruption within the time stops the loop at its tick. A signal ends it as signalled and is the only thing that clears `running`, a keyboard interrupt ends it as interrupted, and an error ends it as failed. |
| `Orchestrator.RunStressTest` | cpu.py:234-270 | Every exit path ends with both lists empty after at least one cleanup of all tracked workers. Later cleanups are no-ops, and there are two only on a signal. Without start failures exactly max(cores, 0) CPU and max(memory_processes, 0) memory workers are tracked, and none unless memory_processes > 0. Success is reported iff time ran out with `running` set: with no start failure and no interruption within the ticks the run completes. With no start failure, an interruption within the ticks means no success report, A signal there ends the run as signalled, with `running` cleared and two cleanups. A keyboard interrupt ends it as interrupted and an error as failed, so a signalled ending comes only from a signal. A failing CPU start ends the run as failed before any tick, with exactly the workers started before it tracked. |
| `Orchestrator.StartMemory` | cpu.py:248-250 | Memory workers start only when memory_processes > 0, into the memory list. If every start succeeds, exactly memory_processes are tracked and the loop runs. A failing start ends the run as failed before any tick. |
| `Orchestrator.RunReachesEveryWorker` | cpu.py:259-270 | On every exit path each worker still alive is sent terminate. If no cleanup error was logged, none is left alive. |
| `Orchestrator.TwoCoresTwoTicks` | cpu.py:234-270 | Two CPU workers, two ticks and no memory workers complete and report success. Exactly two CPU workers were tracked and none remain tracked. |

## Left out

- `cpu_burn`: a non-terminating floating-point busy loop with no observable result.
- Random byte values, `random.random` and `random.randint`: only offsets and counts are modelled.
- The metrics library and `get_system_info`: CPU, memory and temperature figures are inputs.
- `os.system('cls' / 'clear')`, `print` and log text, the log-file name and number formatting: these are output details.
- Signal handler installation and `sys.exit`: the handler's effect is modelled as the `Signal` interruption.
- Process start, terminate, join and kill timing: these are reduced to per-process outcomes.
- Signals arriving while workers are still being started: interruptions are modelled only during the monitoring loop.
- `time.time()` and `time.sleep`: the loop is a count of ticks the clock allows, so `duration` is not an argument of `Orchestrator.RunStressTest`. `intensity` changes only `cpu_burn`'s workload; elsewhere it is only printed and logged (the dashboard header carries it as `Dashboard.Header.intensity`), so it is not an argument either.
- The command-line parser and the `--cpu-only` legacy branch (cpu.py:293-359): these are command-line plumbing.
- The exception path of `memory_burn`: an allocation error makes the worker print and return. It depends on the operating system's memory.
- The 0.1-second sleep of `memory_burn`: this is timing.
- `MemoryBurn.Sample`: draws a pick among the remaining elements rather than following CPython's own sampling algorithm. `MemoryBurn.SampleComplete` shows every distinct choice is reachable, which is all the worker relies on.
- `Temperature.TemperatureInfo`: an exception is modelled only as coming from the sensor query itself. An exception part-way through the loop, after some lines were appended, is not modelled.
- Floating-point arithmetic: Python floats are modelled as exact reals. For `int(usage / 5)` and the non-zero test on temperature readings this changes nothing for finite values. A NaN reading, which Python treats as truthy, cannot be represented.
- `Supervisor.CleanupProcesses`: an exception from `join` is not a separate outcome. A worker's reaction is one of terminate succeeds, outlives the grace period, terminate raises, or kill raises.

=== FILE: common.dfy ===
/** Small shared vocabulary: optional values, integer min/max and distinctness. */
module Common {

  datatype Option<+T> = None | Some(value: T)

  function Min(a: int, b: int): int { if a <= b then a else b }

  function Max(a: int, b: int): int { if a >= b then a else b }

  /** No element occurs twice. */
  predicate Distinct<T(==)>(s: seq<T>) {
    forall i, j :: 0 <= i < j < |s| ==> s[i] != s[j]
  }
}

=== FILE: dashboard.dfy ===
/**
 * One dashboard tick (`display_dashboard`): a 20-segment usage bar per core
 * and for memory, the temperature lines, and one log record. Screen clearing
 * and number formatting are output details and are not modelled.
 */
module Dashboard {
  import opened Common
  import Py
  import Temperature

  const Full: char := '█'
  const Empty: char := '░'
  /** Segments of a bar whose usage is at most 100 percent. */
  const Width: int := 20
  /** Percent of usage per segment. */
  const PercentPerSegment: real := 5.0

  /** `int(usage / 5)`: the number of full segments asked for. */
  function Filled(usage: real): (r: int)
    ensures usage >= 0.0 ==> 0 <= r && r as real * PercentPerSegment <= usage < (r + 1) as real * PercentPerSegment
    ensures usage < 0.0 ==> r <= 0 && usage <= r as real * PercentPerSegment < usage + PercentPerSegment
  {
    Py.Trunc(usage / PercentPerSegment)
  }

  /**
   * `"█" * filled + "░" * (20 - filled)`. Neither count is clamped: Python
   * repeats a string a negative number of times as the empty string.
   */
  function Bar(usage: real): (bar: seq<char>)
    ensures |bar| == Max(Filled(usage), 0) + Max(Width - Filled(usage), 0)
    ensures forall i :: 0 <= i < |bar| ==> bar[i] == Full || bar[i] == Empty
    ensures forall i :: 0 <= i < |bar| ==> (bar[i] == Full <==> i < Filled(usage))
  {
    Py.Repeat(Full, Filled(usage)) + Py.Repeat(Empty, Width - Filled(usage))
  }

  /**
   * For a usage between 0 and 100 percent the bar has exactly 20 segments,
   * and segment `i` is full exactly when the usage reaches `5 * (i + 1)`
   * percent.
   */
  lemma BarInRange(usage: real)
    requires 0.0 <= usage <= 100.0
    ensures |Bar(usage)| == Width
    ensures forall i :: 0 <= i < Width ==> (Bar(usage)[i] == Full <==> PercentPerSegment * (i + 1) as real <= usage)
  {
    var f := Filled(usage);
    assert 0 <= f <= Width by {
      assert f == (usage / 5.0).Floor;
      assert usage / 5.0 <= 20.0;
    }
    forall i | 0 <= i < Width
      ensures Bar(usage)[i] == Full <==> PercentPerSegment * (i + 1) as real <= usage
    {
      assert (i < f) <==> (i + 1) as real <= usage / 5.0;
    }
  }

  /** Three sample points: 0 shows no full segment, 100 only full ones, 45 nine full ones. */
  lemma SamplePoints()
    ensures Bar(0.0) == Py.Repeat(Empty, 20)
    ensures Bar(100.0) == Py.Repeat(Full, 20)
    ensures |Bar(45.0)| == 20 && Bar(45.0)[..9] == Py.Repeat(Full, 9) && Bar(45.0)[9..] == Py.Repeat(Empty, 11)
  {
    assert Filled(0.0) == 0;
    assert Filled(100.0) == 20;
    assert Filled(45.0) == 9;
  }

  /**
   * Usage above 100 percent is not clamped: from 100 percent on no empty
   * segment is left, and from 105 percent on the bar grows past 20 segments.
   */
  lemma BarOverflow(usage: real)
    requires usage >= 100.0
    ensures Empty !in Bar(usage)
    ensures |Bar(usage)| == Filled(usage) >= Width
    ensures usage >= 105.0 ==> |Bar(usage)| > Width
  {
    assert Filled(usage) >= 20 by { assert usage / 5.0 >= 20.0; }
    if usage >= 105.0 {
      assert Filled(usage) >= 21 by { assert usage / 5.0 >= 21.0; }
    }
  }

  /** A negative reading never shows a full segment (truncation toward zero keeps `-5 < usage < 0` at no segments). */
  lemma BarNegative(usage: real)
    requires usage < 0.0
    ensures Full !in Bar(usage)
    ensures usage > -5.0 ==> |Bar(usage)| == Width
  {
  }

  /** What one poll of the metrics library gives; any failure of it is `PollFailed`. */
  datatype Poll =
    | PollFailed
    | Polled(cpu: real, perCore: seq<real>, memoryPercent: real)

  /** The configuration line shown on the dashboard. */
  datatype Header = Header(elapsed: real, cores: int, memorySize: int, intensity: int)

  datatype Screen =
    | ErrorScreen
    | Shown(header: Header, cpu: real, coreBars: seq<seq<char>>, memoryBar: seq<char>, temperatures: seq<Temperature.Line>)

  /** One log record per tick: the metrics, or the error that replaced them. */
  datatype Log = MetricsLog(elapsed: real, cpu: real, memory: real) | ErrorLog

  datatype Tick = Tick(screen: Screen, log: Log)

  function CoreBars(perCore: seq<real>): (bars: seq<seq<char>>)
    ensures |bars| == |perCore|
    ensures forall i :: 0 <= i < |bars| ==> bars[i] == Bar(perCore[i])
  {
    seq(|perCore|, i requires 0 <= i < |perCore| => Bar(perCore[i]))
  }

  /**
   * One call of `display_dashboard`: a failed poll shows the error and logs
   * it; otherwise the screen holds one bar per core in core order, the
   * memory bar and the temperature lines, and the log holds the same
   * elapsed time, CPU and memory figures the screen shows.
   */
  function Render(header: Header, poll: Poll, sensors: Temperature.Query): (t: Tick)
    ensures poll.PollFailed? <==> t.screen.ErrorScreen?
    ensures poll.PollFailed? <==> t.log.ErrorLog?
    ensures poll.Polled? ==>
      && t.screen.header == header
      && |t.screen.coreBars| == |poll.perCore|
      && (forall i :: 0 <= i < |poll.perCore| ==> t.screen.coreBars[i] == Bar(poll.perCore[i]))
      && t.screen.memoryBar == Bar(poll.memoryPercent)
      && t.screen.temperatures == Temperature.Lines(sensors)
      && t.log == MetricsLog(header.elapsed, t.screen.cpu, poll.memoryPercent)
      && t.screen.cpu == poll.cpu
  {
    match poll
    case PollFailed => Tick(ErrorScreen, ErrorLog)
    case Polled(cpu, perCore, memory) =>
      Tick(Shown(header, cpu, CoreBars(perCore), Bar(memory), Temperature.Lines(sensors)),
           MetricsLog(header.elapsed, cpu, memory))
  }
}

=== FILE: memory_burn.dfy ===
/**
 * The bookkeeping of the memory-burn worker (`memory_burn`). Chunk contents
 * are random bytes and are not modelled; a chunk is identified by the number
 * of chunks allocated before it. One outer cycle appends `sizeMb` fresh
 * chunks, touches a random sample of at most ten of them, and evicts the
 * oldest `sizeMb` once more than `2 * sizeMb` are held.
 */
module MemoryBurn {
  import opened Common
  import Py

  /** Bytes per chunk: one MiB. */
  const ChunkSize: nat := 1024 * 1024
  /** One random byte is written per this many bytes of a fresh chunk. */
  const FillStep: nat := 1000
  /** One random byte is written per this many bytes of a touched chunk. */
  const TouchStep: nat := 5000
  /** At most this many chunks are touched per cycle. */
  const MaxTouched: nat := 10

  /** The random draws one cycle's sample may consume. */
  type Draws = d: seq<nat> | |d| >= MaxTouched witness seq(MaxTouched, _ => 0)

  /** Allocation number of a chunk: the n-th chunk allocated has id n. */
  type ChunkId = nat

  /** Offsets written while filling a fresh chunk. */
  function FillOffsets(): seq<int> { Py.Range(0, ChunkSize, FillStep) }

  /** Offsets written while touching a sampled chunk. */
  function TouchOffsets(): seq<int> { Py.Range(0, ChunkSize, TouchStep) }

  /** Every write of both loops lands inside its one-MiB chunk. */
  lemma WritesInBounds()
    ensures |FillOffsets()| == 1049 && |TouchOffsets()| == 210
    ensures forall i :: 0 <= i < |FillOffsets()| ==> 0 <= FillOffsets()[i] < ChunkSize
    ensures forall i :: 0 <= i < |TouchOffsets()| ==> 0 <= TouchOffsets()[i] < ChunkSize
  {
  }

  /** The ids of `n` chunks allocated in a row, starting at `next`. */
  function Fresh(next: nat, n: int): (r: seq<ChunkId>)
    ensures |r| == Max(n, 0)
    ensures forall i :: 0 <= i < |r| ==> r[i] == next + i
    decreases Max(n, 0)
  {
    if n <= 0 then [] else [next] + Fresh(next + 1, n - 1)
  }

  /** `pool` with its `j`-th element removed. */
  function Without<T>(pool: seq<T>, j: nat): (r: seq<T>)
    requires j < |pool|
    ensures |r| == |pool| - 1
    ensures forall i :: 0 <= i < j ==> r[i] == pool[i]
    ensures forall i :: j <= i < |r| ==> r[i] == pool[i + 1]
  {
    pool[..j] + pool[j + 1..]
  }

  /** Removing an element of a duplicate-free pool keeps every other element and no copy of it. */
  lemma WithoutFacts<T>(pool: seq<T>, j: nat)
    requires j < |pool| && Distinct(pool)
    ensures Distinct(Without(pool, j))
    ensures pool[j] !in Without(pool, j)
    ensures forall x :: x in pool && x != pool[j] ==> x in Without(pool, j)
  {
    var rest := Without(pool, j);
    forall a, b | 0 <= a < b < |rest| ensures rest[a] != rest[b] {
      var a' := if a < j then a else a + 1;
      var b' := if b < j then b else b + 1;
      assert rest[a] == pool[a'] && rest[b] == pool[b'] && a' < b';
    }
    forall m | 0 <= m < |rest| ensures rest[m] != pool[j] {
      if m < j { assert rest[m] == pool[m]; } else { assert rest[m] == pool[m + 1]; }
    }
    forall x | x in pool && x != pool[j] ensures x in rest {
      var m :| 0 <= m < |pool| && pool[m] == x;
      if m < j { assert rest[m] == x; } else { assert rest[m - 1] == x; }
    }
  }

  /**
   * `random.sample(pool, k)` driven by the random draws it consumes: the
   * j-th draw picks one of the elements not chosen yet. Any choice of `k`
   * distinct elements is reachable (see `SampleComplete`).
   */
  function Sample<T(==)>(pool: seq<T>, k: nat, draws: seq<nat>): (r: seq<T>)
    requires k <= |pool| && k <= |draws|
    ensures |r| == k
    ensures forall x :: x in r ==> x in pool
    ensures Distinct(pool) ==> Distinct(r)
    decreases k
  {
    if k == 0 then []
    else
      var j := draws[0] % |pool|;
      var rest := Without(pool, j);
      assert forall x :: x in rest ==> x in pool;
      assert Distinct(pool) ==> Distinct(rest) && pool[j] !in rest by {
        if Distinct(pool) { WithoutFacts(pool, j); }
      }
      [pool[j]] + Sample(rest, k - 1, draws[1..])
  }

  /** Every selection of distinct elements of a duplicate-free pool is some run of `Sample`. */
  lemma {:induction false} SampleComplete<T>(pool: seq<T>, picks: seq<T>) returns (draws: seq<nat>)
    requires Distinct(pool) && Distinct(picks)
    requires forall x :: x in picks ==> x in pool
    ensures |picks| <= |pool| && |draws| == |picks|
    ensures Sample(pool, |picks|, draws) == picks
    decreases |picks|
  {
    if picks == [] {
      draws := [];
    } else {
      assert picks[0] in pool;
      var j :| 0 <= j < |pool| && pool[j] == picks[0];
      var rest := Without(pool, j);
      WithoutFacts(pool, j);
      assert Distinct(picks[1..]);
      forall x | x in picks[1..] ensures x in rest {
        var m :| 0 <= m < |picks[1..]| && picks[1..][m] == x;
        assert picks[m + 1] == x && picks[0] != picks[m + 1];
      }
      var tail := SampleComplete(rest, picks[1..]);
      draws := [j] + tail;
      assert draws[1..] == tail;
      ModBelow(j, |pool|);
      SampleFirst(pool, |picks|, draws);
      assert picks == [picks[0]] + picks[1..];
    }
  }

  /** The first draw picks its element and removes it from the pool for the rest. */
  lemma SampleFirst<T>(pool: seq<T>, k: nat, draws: seq<nat>)
    requires 0 < k <= |pool| && k <= |draws|
    ensures Sample(pool, k, draws)
      == [pool[draws[0] % |pool|]] + Sample(Without(pool, draws[0] % |pool|), k - 1, draws[1..])
  {
  }

  lemma ModBelow(j: nat, n: nat)
    requires j < n
    ensures j % n == j
  {
  }

  /** `data` holds the most recent `|data|` of the `next` chunks allocated so far, in order. */
  predicate Recent(data: seq<ChunkId>, next: nat) {
    |data| <= next && forall i :: 0 <= i < |data| ==> data[i] == next - |data| + i
  }

  /** The retention step at the end of a cycle (`if len(data) > size_mb * 2: data = data[size_mb:]`). */
  function Evict(data: seq<ChunkId>, sizeMb: int): (r: seq<ChunkId>)
    ensures sizeMb >= 0 && |data| > 2 * sizeMb ==> |r| == |data| - sizeMb && data == data[..sizeMb] + r
    ensures |data| <= 2 * sizeMb ==> r == data
    ensures sizeMb < 0 ==> |r| <= -sizeMb
  {
    if |data| > sizeMb * 2 then Py.Drop(data, sizeMb) else data
  }

  /** The state a memory worker carries between cycles. */
  datatype Burn = Burn(data: seq<ChunkId>, next: nat)

  /**
   * The chunks kept and the allocation counter after one cycle: `sizeMb`
   * fresh chunks appended, then the eviction rule. The touch pass rewrites
   * chunk contents only, so it plays no part here.
   */
  function Next(b: Burn, sizeMb: int): (a: Burn)
    ensures a.next == b.next + Max(sizeMb, 0)
    ensures forall x :: x in a.data ==> x in b.data || b.next <= x < a.next
  {
    Burn(Evict(b.data + Fresh(b.next, sizeMb), sizeMb), b.next + Max(sizeMb, 0))
  }

  /** One outer cycle: what was held at its peak, which chunks were touched, and what is kept. */
  datatype Cycle = Cycle(peak: seq<ChunkId>, touched: seq<ChunkId>, after: Burn)

  /** One outer cycle of `memory_burn(sizeMb)`; `draws` are the random draws of its sample. */
  function Step(b: Burn, sizeMb: int, draws: Draws): (c: Cycle)
    ensures |c.peak| == |b.data| + Max(sizeMb, 0) && c.peak[..|b.data|] == b.data
    ensures forall i :: |b.data| <= i < |c.peak| ==> c.peak[i] >= b.next
    ensures c.after.next == b.next + Max(sizeMb, 0)
    ensures |c.touched| == Min(MaxTouched, |c.peak|)
    ensures forall x :: x in c.touched ==> x in c.peak
    ensures Recent(b.data, b.next) ==> Recent(c.peak, c.after.next) && Distinct(c.touched)
    ensures c.after.data == Evict(c.peak, sizeMb)
    ensures c.after == Next(b, sizeMb)
  {
    var peak := b.data + Fresh(b.next, sizeMb);
    var next := b.next + Max(sizeMb, 0);
    assert Recent(b.data, b.next) ==> Recent(peak, next);
    assert Recent(peak, next) ==> Distinct(peak);
    var touched := if |peak| > 0 then Sample(peak, Min(MaxTouched, |peak|), draws) else [];
    Cycle(peak, touched, Next(b, sizeMb))
  }

  /**
   * What the worker holds at every cycle boundary: the newest chunks, and a
   * multiple of `sizeMb` no larger than `2 * sizeMb` (see `SmallMultiples`).
   */
  predicate Retained(b: Burn, sizeMb: int) {
    && sizeMb > 0
    && Recent(b.data, b.next)
    && (|b.data| == 0 || |b.data| == sizeMb || |b.data| == 2 * sizeMb)
  }

  /**
   * A cycle keeps the retention invariant, holds at most `3 * sizeMb` chunks
   * at its peak, and keeps exactly the newest chunks allocated so far.
   */
  lemma NextPreserves(b: Burn, sizeMb: int)
    requires Retained(b, sizeMb)
    ensures |b.data + Fresh(b.next, sizeMb)| <= 3 * sizeMb
    ensures Retained(Next(b, sizeMb), sizeMb)
    ensures |Next(b, sizeMb).data| == Min(|b.data| + sizeMb, 2 * sizeMb)
  {
    var grown := b.data + Fresh(b.next, sizeMb);
    var a := Next(b, sizeMb);
    assert Recent(grown, a.next);
    if |grown| > 2 * sizeMb {
      assert grown == grown[..sizeMb] + a.data;
      forall i | 0 <= i < |a.data| ensures a.data[i] == a.next - |a.data| + i {
        assert a.data[i] == grown[i + sizeMb];
      }
    }
  }

  /** The multiples of `s` up to `2 * s` are `0`, `s` and `2 * s`. */
  lemma SmallMultiples(n: nat, s: int)
    requires s > 0
    ensures (n % s == 0 && n <= 2 * s) <==> (n == 0 || n == s || n == 2 * s)
  {
    if n % s == 0 && n <= 2 * s {
      var q := n / s;
      assert n == q * s;
      if q == 1 { assert n == s; }
      if q == 2 { assert n == 2 * s; }
    }
    if n == s { assert n % s == 0; }
    if n == 2 * s { assert (2 * s) % s == 0; }
  }

  /** The worker after `cycles` cycles, starting with no chunks. */
  function Run(sizeMb: int, cycles: nat): (r: Burn)
    ensures forall x :: x in r.data ==> x < r.next
  {
    if cycles == 0 then Burn([], 0) else Next(Run(sizeMb, cycles - 1), sizeMb)
  }

  /**
   * Bounded growth: after any number of cycles the worker holds a multiple of
   * `sizeMb` chunks, at most `2 * sizeMb` of them, and they are the newest
   * ones; from the second cycle on it holds exactly `2 * sizeMb`.
   */
  lemma {:induction false} RunBounded(sizeMb: int, cycles: nat)
    requires sizeMb > 0
    ensures Retained(Run(sizeMb, cycles), sizeMb)
    ensures |Run(sizeMb, cycles).data| == if cycles == 0 then 0 else if cycles == 1 then sizeMb else 2 * sizeMb
    ensures |Run(sizeMb, cycles).data| % sizeMb == 0 && |Run(sizeMb, cycles).data| <= 2 * sizeMb
  {
    if cycles > 0 {
      RunBounded(sizeMb, cycles - 1);
      NextPreserves(Run(sizeMb, cycles - 1), sizeMb);
    }
    SmallMultiples(|Run(sizeMb, cycles).data|, sizeMb);
  }

  /** The allocation counter after `cycles` cycles: `sizeMb` chunks per cycle. */
  lemma {:induction false} RunAllocates(sizeMb: int, cycles: nat)
    ensures Run(sizeMb, cycles).next == cycles * Max(sizeMb, 0)
  {
    if cycles > 0 {
      RunAllocates(sizeMb, cycles - 1);
      Py.MulShift(cycles, Max(sizeMb, 0));
    }
  }

  /** A worker started with a size of zero or less never holds a chunk. */
  lemma {:induction false} RunNonPositiveHoldsNothing(sizeMb: int, cycles: nat)
    requires sizeMb <= 0
    ensures Run(sizeMb, cycles).data == []
  {
    if cycles > 0 {
      RunNonPositiveHoldsNothing(sizeMb, cycles - 1);
    }
  }
}

=== FILE: orchestrator.dfy ===
/**
 * `run_stress_test` and the interrupt handler: start the CPU workers and,
 * when asked for, the memory workers; run the monitoring loop one dashboard
 * tick at a time while `running` holds and time is left; report success
 * only when `running` still holds; and clean up on every way out.
 *
 * Wall-clock time is abstracted to the number of loop iterations the clock
 * allows; process start failures, interruptions, workers exiting by
 * themselves and workers' reactions to cleanup are inputs.
 */
module Orchestrator {
  import opened Common
  import Supervisor

  /** How a run can be cut short during the monitoring loop. */
  datatype Interruption =
    | Signal              // SIGINT/SIGTERM: the installed handler runs
    | KeyboardInterrupt   // caught by run_stress_test's KeyboardInterrupt clause; an over-approximation,
                          // since Ctrl+C runs the installed handler (`Signal`) rather than raising it
    | Error               // any other exception, caught by its Exception clause

  /** The choices the operating system and the clock make during one run. */
  datatype Env = Env(
    cpuFailAt: Option<nat>,                  // the CPU worker whose start raises, if any
    memoryFailAt: Option<nat>,               // the memory worker whose start raises, if any
    ticks: nat,                              // loop iterations before the duration has elapsed
    interruption: Option<(nat, Interruption)>, // the tick during which the run is cut short, and how
    crashed: set<nat>,                       // workers that exited on their own before cleanup
    respond: nat -> Supervisor.Response)     // how each worker reacts to cleanup

  datatype Ending = Completed | Signalled | Interrupted | Failed

  datatype Run = Run(
    ending: Ending,
    spawned: Supervisor.Tracked,       // the tracked lists when the run stopped
    ticks: nat,                        // dashboard ticks rendered (one log record each)
    running: bool,                     // the `running` flag after the loop
    reported: bool,                    // the success message was printed and logged
    cleanups: seq<Supervisor.Cleanup>, // every cleanup_processes call, in order
    tracked: Supervisor.Tracked,       // the tracked lists at the end
    shownMemorySize: int)              // the memory size the dashboard shows

  /** The liveness `is_alive()` reports at cleanup time. */
  function Refresh(hs: seq<Supervisor.Handle>, crashed: set<nat>): (r: seq<Supervisor.Handle>)
    ensures |r| == |hs|
    ensures forall i :: 0 <= i < |hs| ==> r[i].pid == hs[i].pid
    ensures forall i :: 0 <= i < |hs| ==> (r[i].status == Supervisor.Alive <==> hs[i].status == Supervisor.Alive && hs[i].pid !in crashed)
  {
    seq(|hs|, i requires 0 <= i < |hs| =>
      if hs[i].pid in crashed then Supervisor.Handle(hs[i].pid, Supervisor.Exited) else hs[i])
  }

  function RefreshAll(t: Supervisor.Tracked, crashed: set<nat>): Supervisor.Tracked {
    Supervisor.Tracked(Refresh(t.processes, crashed), Refresh(t.memoryProcesses, crashed))
  }

  /** The signal handler: clear `running`, clean up, and exit; `sys.exit` raises SystemExit, so the `finally` clause cleans up once more. */
  function SignalHandler(t: Supervisor.Tracked, env: Env): (cs: seq<Supervisor.Cleanup>)
    ensures |cs| == 2
    ensures cs[0] == Supervisor.CleanupOf(RefreshAll(t, env.crashed), env.respond)
    ensures cs[1].tracked == Supervisor.Untracked && cs[1].calls == [] && cs[1].errors == 0
  {
    var first := Supervisor.CleanupOf(RefreshAll(t, env.crashed), env.respond);
    Supervisor.CleanupIdempotent(RefreshAll(t, env.crashed), env.respond, env.respond);
    [first, Supervisor.CleanupOf(first.tracked, env.respond)]
  }

  /** The way out after the lists reached `spawned`: the `finally` clause runs cleanup. */
  function Finish(ending: Ending, spawned: Supervisor.Tracked, ticks: nat, running: bool, shown: int, env: Env): (r: Run)
    ensures r.ending == ending && r.spawned == spawned && r.ticks == ticks && r.running == running
    ensures r.shownMemorySize == shown
    ensures r.tracked == Supervisor.Untracked
    ensures |r.cleanups| >= 1
    ensures r.cleanups[0] == Supervisor.CleanupOf(RefreshAll(spawned, env.crashed), env.respond)
    ensures forall k :: 1 <= k < |r.cleanups| ==> r.cleanups[k].calls == [] && r.cleanups[k].errors == 0
    ensures |r.cleanups| == 2 <==> ending == Signalled
    ensures r.reported <==> ending == Completed
  {
    var cleanups :=
      if ending == Signalled then SignalHandler(spawned, env)
      else [Supervisor.CleanupOf(RefreshAll(spawned, env.crashed), env.respond)];
    Run(ending, spawned, ticks, running, ending == Completed, cleanups, Supervisor.Untracked, shown)
  }

  /** The monitoring loop, then the way out, once all workers are started. */
  function Monitor(spawned: Supervisor.Tracked, shown: int, env: Env): (r: Run)
    ensures r.spawned == spawned && r.shownMemorySize == shown
    ensures r.tracked == Supervisor.Untracked
    ensures |r.cleanups| >= 1
    ensures r.cleanups[0] == Supervisor.CleanupOf(RefreshAll(spawned, env.crashed), env.respond)
    ensures forall k :: 1 <= k < |r.cleanups| ==> r.cleanups[k].calls == [] && r.cleanups[k].errors == 0
    ensures |r.cleanups| == 2 <==> r.ending == Signalled
    ensures r.reported <==> r.ending == Completed
    ensures r.reported ==> r.running && r.ticks == env.ticks
    ensures !r.running <==> r.ending == Signalled
    ensures r.ticks <= env.ticks
    ensures r.ending == Completed <==> !(env.interruption.Some? && env.interruption.value.0 < env.ticks)
    ensures env.interruption.Some? && env.interruption.value.0 < env.ticks ==>
              r.ticks == env.interruption.value.0 &&
              (r.ending == Signalled <==> env.interruption.value.1 == Signal) &&
              (env.interruption.value.1 == KeyboardInterrupt ==> r.ending == Interrupted) &&
              (env.interruption.value.1 == Error ==> r.ending == Failed)
  {
    if env.interruption.Some? && env.interruption.value.0 < env.ticks then
      var (tick, how) := env.interruption.value;
      match how
      case Signal => Finish(Signalled, spawned, tick, false, shown, env)
      case KeyboardInterrupt => Finish(Interrupted, spawned, tick, true, shown, env)
      case Error => Finish(Failed, spawned, tick, true, shown, env)
    else Finish(Completed, spawned, env.ticks, true, shown, env)
  }

  /**
   * `run_stress_test` on a fresh tester: nothing is tracked at the start
   * and process ids are handed out from 0.
   */
  function RunStressTest(cores: int, memoryProcesses: int, memorySize: int, env: Env): (r: Run)
    // every way out ends with both lists empty, after at least one cleanup
    ensures r.tracked == Supervisor.Untracked
    ensures |r.cleanups| >= 1
    ensures r.cleanups[0] == Supervisor.CleanupOf(RefreshAll(r.spawned, env.crashed), env.respond)
    ensures forall k :: 1 <= k < |r.cleanups| ==> r.cleanups[k].calls == [] && r.cleanups[k].errors == 0
    ensures |r.cleanups| == 2 <==> r.ending == Signalled
    // when every start succeeded, exactly the requested workers are tracked
    ensures (env.cpuFailAt.None? || env.cpuFailAt.value >= cores) && (memoryProcesses <= 0 || env.memoryFailAt.None? || env.memoryFailAt.value >= memoryProcesses)
      ==> |r.spawned.processes| == Max(cores, 0) && |r.spawned.memoryProcesses| == Max(memoryProcesses, 0)
    ensures memoryProcesses <= 0 ==> r.spawned.memoryProcesses == []
    ensures forall h :: h in r.spawned.processes + r.spawned.memoryProcesses ==> h.status == Supervisor.Alive
    // success is reported exactly when the loop ran out of time with `running` still set
    ensures r.reported <==> r.ending == Completed
    ensures r.reported ==> r.running && r.ticks == env.ticks
    ensures !r.running <==> r.ending == Signalled
    ensures r.ticks <= env.ticks
    ensures r.shownMemorySize == if memoryProcesses > 0 then memorySize else 0
    // with every start succeeding and no interruption within the ticks, the run completes
    ensures ((env.cpuFailAt.None? || env.cpuFailAt.value >= cores)
             && (memoryProcesses <= 0 || env.memoryFailAt.None? || env.memoryFailAt.value >= memoryProcesses)
             && !(env.interruption.Some? && env.interruption.value.0 < env.ticks))
      ==> r.ending == Completed
    // with every start succeeding, an interruption within the ticks prevents the report, and a signal
    // stops the loop and cleans up twice
    ensures ((env.cpuFailAt.None? || env.cpuFailAt.value >= cores)
             && (memoryProcesses <= 0 || env.memoryFailAt.None? || env.memoryFailAt.value >= memoryProcesses)
             && env.interruption.Some? && env.interruption.value.0 < env.ticks)
      ==> !r.reported && r.ticks == env.interruption.value.0 &&
          (r.ending == Signalled <==> env.interruption.value.1 == Signal) &&
          (env.interruption.value.1 == Signal ==> !r.running && |r.cleanups| == 2) &&
          (env.interruption.value.1 == KeyboardInterrupt ==> r.ending == Interrupted) &&
          (env.interruption.value.1 == Error ==> r.ending == Failed)
    // a failing CPU start ends the run before any tick, with the workers started before it tracked
    ensures env.cpuFailAt.Some? && env.cpuFailAt.value < cores ==>
      r.ending == Failed && r.ticks == 0 && |r.spawned.processes| == env.cpuFailAt.value && r.spawned.memoryProcesses == []
    ensures (memoryProcesses > 0 && (env.cpuFailAt.None? || env.cpuFailAt.value >= cores)
             && env.memoryFailAt.Some? && env.memoryFailAt.value < memoryProcesses)
      ==> r.ending == Failed && r.ticks == 0 && |r.spawned.processes| == Max(cores, 0) && |r.spawned.memoryProcesses| == env.memoryFailAt.value
  {
    var shown := if memoryProcesses > 0 then memorySize else 0;
    var (afterCpu, cpu) := Supervisor.StressCpu(Supervisor.Untracked, cores, 0, env.cpuFailAt);
    if !cpu.ok then Finish(Failed, afterCpu, 0, true, shown, env)
    else StartMemory(afterCpu, cpu.next, memoryProcesses, shown, env)
  }

  /** After the CPU workers started: the memory workers when asked for, then the monitoring loop. */
  function StartMemory(afterCpu: Supervisor.Tracked, next: nat, memoryProcesses: int, shown: int, env: Env): (r: Run)
    requires afterCpu.memoryProcesses == []
    ensures r.spawned.processes == afterCpu.processes
    ensures memoryProcesses <= 0 ==> r.spawned.memoryProcesses == [] && r == Monitor(afterCpu, shown, env)
    ensures forall h :: h in r.spawned.memoryProcesses ==> h.status == Supervisor.Alive
    ensures (memoryProcesses <= 0 || env.memoryFailAt.None? || env.memoryFailAt.value >= memoryProcesses)
      ==> |r.spawned.memoryProcesses| == Max(memoryProcesses, 0) && r == Monitor(r.spawned, shown, env)
    ensures ((memoryProcesses <= 0 || env.memoryFailAt.None? || env.memoryFailAt.value >= memoryProcesses)
             && env.interruption.Some? && env.interruption.value.0 < env.ticks)
      ==> !r.reported && r.ticks == env.interruption.value.0 &&
          (r.ending == Signalled <==> env.interruption.value.1 == Signal) &&
          (env.interruption.value.1 == Signal ==> !r.running && |r.cleanups| == 2) &&
          (env.interruption.value.1 == KeyboardInterrupt ==> r.ending == Interrupted) &&
          (env.interruption.value.1 == Error ==> r.ending == Failed)
    ensures (memoryProcesses > 0 && env.memoryFailAt.Some? && env.memoryFailAt.value < memoryProcesses)
      ==> r == Finish(Failed, r.spawned, 0, true, shown, env) && |r.spawned.memoryProcesses| == env.memoryFailAt.value
  {
    if memoryProcesses > 0 then
      var (spawned, memory) := Supervisor.StressMemory(afterCpu, memoryProcesses, next, env.memoryFailAt);
      if !memory.ok then Finish(Failed, spawned, 0, true, shown, env)
      else Monitor(spawned, shown, env)
    else Monitor(afterCpu, shown, env)
  }

  /**
   * Cleanup reaches every worker: each one still alive when the run stops is
   * sent `Terminate`, and when no cleanup error was logged none is left alive.
   */
  lemma RunReachesEveryWorker(cores: int, memoryProcesses: int, memorySize: int, env: Env)
    ensures var r := RunStressTest(cores, memoryProcesses, memorySize, env);
      var seen := Supervisor.All(RefreshAll(r.spawned, env.crashed));
      && (forall h :: h in seen && h.status == Supervisor.Alive ==> Supervisor.Terminate(h.pid) in r.cleanups[0].calls)
      && (r.cleanups[0].errors == 0 ==> forall h :: h in r.cleanups[0].handles ==> h.status == Supervisor.Exited)
  {
    var r := RunStressTest(cores, memoryProcesses, memorySize, env);
    var seen := Supervisor.All(RefreshAll(r.spawned, env.crashed));
    Supervisor.EveryLiveTerminated(seen, env.respond);
    if r.cleanups[0].errors == 0 {
      Supervisor.NoErrorsAllExited(seen, env.respond);
    }
  }

  /** Two CPU workers for two ticks, no memory workers, nothing going wrong: completes, reports, and leaves nothing tracked. */
  lemma TwoCoresTwoTicks(respond: nat -> Supervisor.Response)
    ensures var r := RunStressTest(2, 0, 100, Env(None, None, 2, None, {}, respond));
      && r.ending == Completed && r.reported && r.ticks == 2
      && |r.spawned.processes| == 2 && r.spawned.memoryProcesses == []
      && r.tracked == Supervisor.Untracked
  {
  }
}

=== FILE: py.dfy ===
/**
 * The few Python built-ins whose edge cases the stress tester relies on:
 * `int()` on a float, string repetition by a possibly negative count,
 * the slice `s[k:]` with a possibly negative or oversized `k`, and
 * `range(start, stop, step)` with a positive step.
 */
module Py {
  import opened Common

  /** `int(x)` for a float `x`: truncation toward zero (not the floor). */
  function Trunc(x: real): (r: int)
    ensures x >= 0.0 ==> r as real <= x < r as real + 1.0
    ensures x < 0.0 ==> r as real - 1.0 < x <= r as real
    ensures x >= 0.0 ==> r == x.Floor
  {
    if x >= 0.0 then x.Floor else -((-x).Floor)
  }

  /** `c * n` for a one-character string `c`: `n` copies, none when `n <= 0`. */
  function Repeat(c: char, n: int): (r: seq<char>)
    ensures |r| == Max(n, 0)
    ensures forall i :: 0 <= i < |r| ==> r[i] == c
    decreases Max(n, 0)
  {
    if n <= 0 then [] else [c] + Repeat(c, n - 1)
  }

  /**
   * `s[k:]`: a non-negative `k` drops the first `k` elements (all of them when
   * `k > |s|`); a negative `k` keeps the last `-k` elements (all of them when
   * `-k > |s|`). The result is always a suffix of `s`.
   */
  function Drop<T>(s: seq<T>, k: int): (r: seq<T>)
    ensures k >= 0 ==> |r| == Max(|s| - k, 0)
    ensures k < 0 ==> |r| == Min(-k, |s|)
    ensures forall i :: 0 <= i < |r| ==> r[i] == s[|s| - |r| + i]
  {
    var start := if k >= 0 then Min(k, |s|) else Max(|s| + k, 0);
    s[start..]
  }

  /** `list(range(start, stop, step))` for a positive step. */
  function Range(start: int, stop: int, step: nat): (r: seq<int>)
    requires step > 0
    ensures start >= stop ==> r == []
    ensures start < stop ==> start + (|r| - 1) * step < stop <= start + |r| * step
    ensures forall i :: 0 <= i < |r| ==> r[i] == start + i * step
    ensures forall i :: 0 <= i < |r| ==> start <= r[i] < stop
    decreases stop - start
  {
    if start >= stop then []
    else
      var rest := Range(start + step, stop, step);
      MulShift(|rest| + 1, step);
      MulShift(|rest|, step);
      assert forall i :: 1 <= i <= |rest| ==> start + step + (i - 1) * step == start + i * step
        by { forall i | 1 <= i <= |rest| { MulShift(i, step); } }
      [start] + rest
  }

  lemma MulShift(i: int, d: int)
    ensures d + (i - 1) * d == i * d
  {
  }
}

=== FILE: supervisor.dfy ===
/**
 * The process bookkeeping of `CPUStressTester`: the two tracked lists of
 * worker handles, spawning into them (`stress_cpu`, `stress_memory`) and the
 * cleanup protocol (`cleanup_processes`): terminate every live worker, wait
 * out a grace period, kill it if it is still alive, and clear both lists no
 * matter what happened.
 *
 * The operating system is abstracted: a handle carries the liveness that
 * `is_alive()` reports, and how a live worker reacts to the protocol is a
 * nondeterministic input per process id.
 */
module Supervisor {
  import opened Common

  datatype Status = Alive | Exited

  datatype Handle = Handle(pid: nat, status: Status)

  /** `self.processes` (CPU workers) and `self.memory_processes`. */
  datatype Tracked = Tracked(processes: seq<Handle>, memoryProcesses: seq<Handle>)

  /** The seconds `join` waits after `terminate` before escalating to `kill`. */
  const GraceSeconds: nat := 2

  /** How a live worker reacts to the cleanup protocol. */
  datatype Response =
    | ExitsOnTerminate   // gone within the grace period
    | OutlivesGrace      // still alive after waiting GraceSeconds; killed and joined
    | TerminateRaises    // `terminate` raised; the error is logged
    | KillRaises         // still alive after the grace period and `kill` raised; logged

  /** A signal the supervisor sends to a worker. */
  datatype Call = Terminate(pid: nat) | Kill(pid: nat)

  /** The signals cleanup sends to one handle. */
  function CallsFor(h: Handle, r: Response): (cs: seq<Call>)
    ensures cs == [] <==> h.status == Exited
    ensures cs != [] ==> cs[0] == Terminate(h.pid)
    ensures |cs| <= 2 && (|cs| == 2 ==> cs[1] == Kill(h.pid))
    ensures |cs| == 2 <==> h.status == Alive && (r.OutlivesGrace? || r.KillRaises?)
  {
    match (h.status, r)
    case (Exited, _) => []
    case (Alive, ExitsOnTerminate) => [Terminate(h.pid)]
    case (Alive, OutlivesGrace) => [Terminate(h.pid), Kill(h.pid)]
    case (Alive, TerminateRaises) => [Terminate(h.pid)]
    case (Alive, KillRaises) => [Terminate(h.pid), Kill(h.pid)]
  }

  /** A handle after cleanup: a live worker is gone unless the protocol raised on it. */
  function Settle(h: Handle, r: Response): (s: Handle)
    ensures s.pid == h.pid
    ensures s.status == Exited <==> h.status == Exited || r.ExitsOnTerminate? || r.OutlivesGrace?
  {
    if Fails(h, r) then h else Handle(h.pid, Exited)
  }

  /** Cleanup of this handle logs an error. */
  predicate Fails(h: Handle, r: Response) {
    h.status == Alive && (r.TerminateRaises? || r.KillRaises?)
  }

  /** The signals sent while walking `hs` in order. */
  function AllCalls(hs: seq<Handle>, respond: nat -> Response): (cs: seq<Call>)
    ensures |cs| <= 2 * |hs|
  {
    if hs == [] then []
    else AllCalls(hs[..|hs| - 1], respond) + CallsFor(hs[|hs| - 1], respond(hs[|hs| - 1].pid))
  }

  function ErrorCount(hs: seq<Handle>, respond: nat -> Response): (n: nat)
    ensures n <= |hs|
  {
    if hs == [] then 0
    else ErrorCount(hs[..|hs| - 1], respond) + (if Fails(hs[|hs| - 1], respond(hs[|hs| - 1].pid)) then 1 else 0)
  }

  function SettleAll(hs: seq<Handle>, respond: nat -> Response): (r: seq<Handle>)
    ensures |r| == |hs|
    ensures forall i :: 0 <= i < |hs| ==> r[i] == Settle(hs[i], respond(hs[i].pid))
  {
    seq(|hs|, i requires 0 <= i < |hs| => Settle(hs[i], respond(hs[i].pid)))
  }

  /** Both lists, CPU workers first, as `cleanup_processes` walks them. */
  function All(t: Tracked): seq<Handle> {
    t.processes + t.memoryProcesses
  }

  /** What cleanup leaves behind: the tracked lists, the handles as the OS now sees them, the signals sent, the errors logged. */
  datatype Cleanup = Cleanup(tracked: Tracked, handles: seq<Handle>, calls: seq<Call>, errors: nat)

  const Untracked: Tracked := Tracked([], [])

  /** The outcome `cleanup_processes` is specified to have. */
  function CleanupOf(t: Tracked, respond: nat -> Response): (c: Cleanup)
    ensures c.tracked == Untracked
    ensures |c.handles| == |t.processes| + |t.memoryProcesses|
    ensures forall i :: 0 <= i < |c.handles| ==> c.handles[i].pid == All(t)[i].pid
    ensures forall i :: 0 <= i < |c.handles| ==>
              (c.handles[i].status == Exited <==>
                 All(t)[i].status == Exited || respond(All(t)[i].pid).ExitsOnTerminate? || respond(All(t)[i].pid).OutlivesGrace?)
    ensures c.errors <= |c.handles|
  {
    Cleanup(Untracked, SettleAll(All(t), respond), AllCalls(All(t), respond), ErrorCount(All(t), respond))
  }

  /**
   * `cleanup_processes` as the source writes it: one pass over both lists in
   * which an exception on one worker is logged and the pass goes on, then
   * both lists are cleared unconditionally.
   */
  method CleanupProcesses(t: Tracked, respond: nat -> Response) returns (c: Cleanup)
    ensures c == CleanupOf(t, respond)
    ensures c.tracked == Untracked
  {
    var all := All(t);
    var calls: seq<Call> := [];
    var errors: nat := 0;
    var i := 0;
    while i < |all|
      invariant 0 <= i <= |all|
      invariant calls == AllCalls(all[..i], respond)
      invariant errors == ErrorCount(all[..i], respond)
    {
      var p := all[i];
      assert all[..i + 1][..i] == all[..i];
      assert AllCalls(all[..i + 1], respond) == calls + CallsFor(p, respond(p.pid));
      assert ErrorCount(all[..i + 1], respond) == errors + if Fails(p, respond(p.pid)) then 1 else 0;
      if p.status == Alive {
        match respond(p.pid)
        case ExitsOnTerminate =>
          calls := calls + [Terminate(p.pid)];
        case OutlivesGrace =>
          calls := calls + [Terminate(p.pid), Kill(p.pid)];
        case TerminateRaises =>
          calls := calls + [Terminate(p.pid)];
          errors := errors + 1;
        case KillRaises =>
          calls := calls + [Terminate(p.pid), Kill(p.pid)];
          errors := errors + 1;
      }
      i := i + 1;
    }
    assert all[..i] == all;
    c := Cleanup(Untracked, SettleAll(all, respond), calls, errors);
  }

  /** Cleanup is idempotent: a second run finds nothing tracked, signals nobody and logs nothing. */
  lemma CleanupIdempotent(t: Tracked, respond: nat -> Response, respondAgain: nat -> Response)
    ensures CleanupOf(CleanupOf(t, respond).tracked, respondAgain) == Cleanup(Untracked, [], [], 0)
    ensures CleanupOf(t, respond).tracked == Untracked
  {
  }

  /** The process ids of the handles that were alive when cleanup looked at them. */
  function AlivePids(hs: seq<Handle>): set<nat> {
    set i | 0 <= i < |hs| && hs[i].status == Alive :: hs[i].pid
  }

  /** Only workers that are alive are ever signalled. */
  lemma {:induction false} OnlyLiveSignalled(hs: seq<Handle>, respond: nat -> Response)
    ensures forall c :: c in AllCalls(hs, respond) ==> c.pid in AlivePids(hs)
  {
    if hs != [] {
      var init := hs[..|hs| - 1];
      OnlyLiveSignalled(init, respond);
      forall c | c in AllCalls(hs, respond) ensures c.pid in AlivePids(hs) {
        if c in AllCalls(init, respond) {
          var i :| 0 <= i < |init| && init[i].status == Alive && init[i].pid == c.pid;
          assert hs[i] == init[i];
        } else {
          assert hs[|hs| - 1].status == Alive;
        }
      }
    }
  }

  /** With distinct process ids, a worker that had already exited receives no signal. */
  lemma ExitedNeverSignalled(hs: seq<Handle>, respond: nat -> Response, i: nat)
    requires Distinct(Pids(hs))
    requires i < |hs| && hs[i].status == Exited
    ensures forall c :: c in AllCalls(hs, respond) ==> c.pid != hs[i].pid
  {
    OnlyLiveSignalled(hs, respond);
  }

  function Pids(hs: seq<Handle>): (r: seq<nat>)
    ensures |r| == |hs| && forall i :: 0 <= i < |hs| ==> r[i] == hs[i].pid
  {
    seq(|hs|, i requires 0 <= i < |hs| => hs[i].pid)
  }

  /**
   * Escalation: every `Kill` comes right after the `Terminate` of the same
   * worker, and only for a worker that outlived the grace period.
   */
  lemma {:induction false} KillOnlyAfterGrace(hs: seq<Handle>, respond: nat -> Response)
    ensures forall k :: 0 <= k < |AllCalls(hs, respond)| && AllCalls(hs, respond)[k].Kill? ==>
      && k > 0
      && AllCalls(hs, respond)[k - 1] == Terminate(AllCalls(hs, respond)[k].pid)
      && respond(AllCalls(hs, respond)[k].pid) in {OutlivesGrace, KillRaises}
  {
    if hs != [] {
      var init := hs[..|hs| - 1];
      KillOnlyAfterGrace(init, respond);
      var before := AllCalls(init, respond);
      var last := CallsFor(hs[|hs| - 1], respond(hs[|hs| - 1].pid));
      var calls: seq<Call> := AllCalls(hs, respond);
      assert calls == before + last;
      forall k | 0 <= k < |calls| && calls[k].Kill?
        ensures k > 0 && calls[k - 1] == Terminate(calls[k].pid)
        ensures respond(calls[k].pid) in {OutlivesGrace, KillRaises}
      {
        if k < |before| {
          assert calls[k] == before[k];
          assert calls[k - 1] == before[k - 1];
        } else {
          assert last[k - |before|].Kill?;
          assert k - |before| == 1;
        }
      }
    }
  }

  /** An exception on one worker does not stop the others: every live worker is sent `Terminate`. */
  lemma {:induction false} EveryLiveTerminated(hs: seq<Handle>, respond: nat -> Response)
    ensures forall i :: 0 <= i < |hs| && hs[i].status == Alive ==> Terminate(hs[i].pid) in AllCalls(hs, respond)
  {
    if hs != [] {
      var init := hs[..|hs| - 1];
      EveryLiveTerminated(init, respond);
      forall i | 0 <= i < |hs| && hs[i].status == Alive ensures Terminate(hs[i].pid) in AllCalls(hs, respond) {
        if i < |init| {
          assert hs[i] == init[i];
        } else {
          assert Terminate(hs[i].pid) in CallsFor(hs[i], respond(hs[i].pid));
        }
      }
    }
  }

  /** When no error was logged, every worker is gone after cleanup. */
  lemma {:induction false} NoErrorsAllExited(hs: seq<Handle>, respond: nat -> Response)
    requires ErrorCount(hs, respond) == 0
    ensures forall h :: h in SettleAll(hs, respond) ==> h.status == Exited
  {
    if hs != [] {
      var init := hs[..|hs| - 1];
      NoErrorsAllExited(init, respond);
      forall h | h in SettleAll(hs, respond) ensures h.status == Exited {
        var i :| 0 <= i < |hs| && SettleAll(hs, respond)[i] == h;
        if i < |init| {
          assert hs[i] == init[i];
          assert SettleAll(init, respond)[i] == h;
        }
      }
    }
  }

  /** The handles and the process-id counter after starting workers. */
  datatype Spawned = Spawned(handles: seq<Handle>, next: nat, ok: bool)

  /**
   * `count` iterations of `Process(...).start()` followed by `append`, new
   * workers taking the ids `next`, `next + 1`, ...; when `failAt` is
   * `Some(k)` the k-th start raises, leaving the `k` workers started before
   * it tracked and the error propagating (`ok` false).
   */
  function Spawn(hs: seq<Handle>, count: int, next: nat, failAt: Option<nat>): (s: Spawned)
    ensures s.ok <==> failAt.None? || failAt.value >= count
    ensures |s.handles| == |hs| + (if s.ok then Max(count, 0) else failAt.value)
    ensures s.handles[..|hs|] == hs
    ensures forall i :: |hs| <= i < |s.handles| ==> s.handles[i] == Handle(next + (i - |hs|), Alive)
    ensures s.next == next + (|s.handles| - |hs|)
    decreases Max(count, 0)
  {
    if count <= 0 then Spawned(hs, next, true)
    else if failAt == Some(0) then Spawned(hs, next, false)
    else
      var failLater := if failAt.Some? then Some(failAt.value - 1) else None;
      var s := Spawn(hs + [Handle(next, Alive)], count - 1, next + 1, failLater);
      assert (hs + [Handle(next, Alive)])[..|hs|] == hs;
      s
  }

  /** `stress_cpu`: starts `cores` CPU workers into the CPU list; the memory list is untouched. */
  function StressCpu(t: Tracked, cores: int, next: nat, failAt: Option<nat>): (r: (Tracked, Spawned))
    ensures r.0.memoryProcesses == t.memoryProcesses
    ensures r.0.processes == r.1.handles
    ensures r.1 == Spawn(t.processes, cores, next, failAt)
    ensures r.0.processes[..|t.processes|] == t.processes
    ensures forall i :: |t.processes| <= i < |r.0.processes| ==> r.0.processes[i] == Handle(next + (i - |t.processes|), Alive)
    ensures r.1.ok ==> |r.0.processes| == |t.processes| + Max(cores, 0)
    ensures !r.1.ok ==> |r.0.processes| == |t.processes| + failAt.value
    ensures r.1.ok <==> failAt.None? || failAt.value >= cores
  {
    var s := Spawn(t.processes, cores, next, failAt);
    (Tracked(s.handles, t.memoryProcesses), s)
  }

  /** `stress_memory`: starts `processes` memory workers into the memory list; the CPU list is untouched. */
  function StressMemory(t: Tracked, processes: int, next: nat, failAt: Option<nat>): (r: (Tracked, Spawned))
    ensures r.0.processes == t.processes
    ensures r.0.memoryProcesses == r.1.handles
    ensures r.1 == Spawn(t.memoryProcesses, processes, next, failAt)
    ensures r.0.memoryProcesses[..|t.memoryProcesses|] == t.memoryProcesses
    ensures forall i :: |t.memoryProcesses| <= i < |r.0.memoryProcesses| ==>
      r.0.memoryProcesses[i] == Handle(next + (i - |t.memoryProcesses|), Alive)
    ensures r.1.ok ==> |r.0.memoryProcesses| == |t.memoryProcesses| + Max(processes, 0)
    ensures !r.1.ok ==> |r.0.memoryProcesses| == |t.memoryProcesses| + failAt.value
    ensures r.1.ok <==> failAt.None? || failAt.value >= processes
  {
    var s := Spawn(t.memoryProcesses, processes, next, failAt);
    (Tracked(t.processes, s.handles), s)
  }
}

=== FILE: temperature.dfy ===
/**
 * The temperature lines of the dashboard (`get_temperature_info`). The
 * sensor query either is not offered by the platform, raises, or returns an
 * ordered mapping from sensor name to readings; only readings whose current
 * value is non-zero are shown.
 */
module Temperature {

  /** One sensor reading; only its current value is read. */
  datatype Entry = Entry(current: real)

  /** One sensor of the mapping, in its iteration position. */
  datatype Sensor = Sensor(name: string, entries: seq<Entry>)

  /** What asking the platform for temperatures gives. */
  datatype Query =
    | Unsupported              // the metrics library has no temperature call here
    | Raised                   // the call raised
    | Returned(sensors: seq<Sensor>)

  datatype Line =
    | NotSupported
    | NotAvailable
    | Reading(sensor: string, celsius: real)
    | ReadError

  /** A reading is shown when its current value is truthy, that is non-zero. */
  predicate Shown(e: Entry) { e.current != 0.0 }

  /** The (sensor name, entry) pairs of one sensor, in order. */
  function Pairs(s: Sensor): (r: seq<(string, Entry)>)
    ensures |r| == |s.entries|
    ensures forall k :: 0 <= k < |r| ==> r[k] == (s.name, s.entries[k])
  {
    seq(|s.entries|, k requires 0 <= k < |s.entries| => (s.name, s.entries[k]))
  }

  /** Every (sensor name, entry) pair of the mapping, in iteration order. */
  function Flatten(sensors: seq<Sensor>): (r: seq<(string, Entry)>)
    ensures forall p :: p in r ==> exists s :: s in sensors && p.0 == s.name && p.1 in s.entries
  {
    if sensors == [] then []
    else Flatten(sensors[..|sensors| - 1]) + Pairs(sensors[|sensors| - 1])
  }

  function LineFor(p: (string, Entry)): (ls: seq<Line>)
    ensures |ls| <= 1
    ensures ls != [] <==> Shown(p.1)
    ensures forall l :: l in ls ==> l == Reading(p.0, p.1.current)
  {
    if Shown(p.1) then [Reading(p.0, p.1.current)] else []
  }

  /** The lines for the shown pairs, in order. */
  function Readings(pairs: seq<(string, Entry)>): (lines: seq<Line>)
    ensures |lines| <= |pairs|
    ensures forall l :: l in lines ==> l.Reading? && l.celsius != 0.0
  {
    if pairs == [] then []
    else Readings(pairs[..|pairs| - 1]) + LineFor(pairs[|pairs| - 1])
  }

  /** The lines `get_temperature_info` produces for a query. */
  function Lines(q: Query): (r: seq<Line>)
    ensures q.Returned? && q.sensors != [] ==> forall l :: l in r ==> l.Reading? && l.celsius != 0.0
    ensures !(q.Returned? && q.sensors != []) ==> |r| == 1 && !r[0].Reading?
    ensures NotSupported in r <==> q.Unsupported?
    ensures ReadError in r <==> q.Raised?
    ensures NotAvailable in r <==> q == Returned([])
  {
    match q
    case Unsupported => [NotSupported]
    case Raised => [ReadError]
    case Returned(sensors) => if sensors == [] then [NotAvailable] else Readings(Flatten(sensors))
  }

  lemma ReadingsSnoc(pairs: seq<(string, Entry)>, p: (string, Entry))
    ensures Readings(pairs + [p]) == Readings(pairs) + LineFor(p)
  {
    assert (pairs + [p])[..|pairs|] == pairs;
  }

  lemma FlattenSnoc(sensors: seq<Sensor>, i: nat)
    requires i < |sensors|
    ensures Flatten(sensors[..i + 1]) == Flatten(sensors[..i]) + Pairs(sensors[i])
  {
    assert sensors[..i + 1][..i] == sensors[..i];
  }

  /** One more pair of a sensor adds its line, if any, at the end. */
  lemma ReadingsExtend(done: seq<(string, Entry)>, pairs: seq<(string, Entry)>, j: nat)
    requires j < |pairs|
    ensures Readings(done + pairs[..j + 1]) == Readings(done + pairs[..j]) + LineFor(pairs[j])
  {
    assert done + pairs[..j + 1] == (done + pairs[..j]) + [pairs[j]];
    ReadingsSnoc(done + pairs[..j], pairs[j]);
  }

  /** The inner loop: appends the lines of one sensor's readings. */
  method AppendSensor(lines: seq<Line>, sensor: Sensor, ghost done: seq<(string, Entry)>) returns (out: seq<Line>)
    requires lines == Readings(done)
    ensures out == Readings(done + Pairs(sensor))
  {
    var pairs := Pairs(sensor);
    out := lines;
    var j := 0;
    assert done + pairs[..0] == done;
    while j < |sensor.entries|
      invariant 0 <= j <= |sensor.entries|
      invariant out == Readings(done + pairs[..j])
    {
      var e := sensor.entries[j];
      ReadingsExtend(done, pairs, j);
      assert pairs[j] == (sensor.name, e);
      if e.current != 0.0 {
        out := out + [Reading(sensor.name, e.current)];
      }
      j := j + 1;
    }
    assert pairs[..j] == pairs;
  }

  /**
   * `get_temperature_info` as the source writes it: a loop over the sensors
   * and, inside it, a loop over each sensor's readings.
   */
  method TemperatureInfo(q: Query) returns (lines: seq<Line>)
    ensures lines == Lines(q)
    ensures q.Unsupported? ==> lines == [NotSupported]
    ensures q.Returned? && q.sensors == [] ==> lines == [NotAvailable]
  {
    match q
    case Unsupported =>
      lines := [NotSupported];
    case Raised =>
      lines := [ReadError];
    case Returned(sensors) =>
      if sensors == [] {
        lines := [NotAvailable];
      } else {
        lines := [];
        var i := 0;
        while i < |sensors|
          invariant 0 <= i <= |sensors|
          invariant lines == Readings(Flatten(sensors[..i]))
        {
          FlattenSnoc(sensors, i);
          lines := AppendSensor(lines, sensors[i], Flatten(sensors[..i]));
          i := i + 1;
        }
        assert sensors[..i] == sensors;
      }
  }

  /** A non-empty mapping whose readings are all zero shows nothing. */
  lemma {:induction false} AllZeroShowsNothing(pairs: seq<(string, Entry)>)
    requires forall k :: 0 <= k < |pairs| ==> pairs[k].1.current == 0.0
    ensures Readings(pairs) == []
  {
    if pairs != [] {
      AllZeroShowsNothing(pairs[..|pairs| - 1]);
    }
  }

  /** When every reading is non-zero, each gets its own line, in iteration order. */
  lemma {:induction false} AllNonZeroShowsEach(pairs: seq<(string, Entry)>)
    requires forall k :: 0 <= k < |pairs| ==> pairs[k].1.current != 0.0
    ensures |Readings(pairs)| == |pairs|
    ensures forall k :: 0 <= k < |pairs| ==> Readings(pairs)[k] == Reading(pairs[k].0, pairs[k].1.current)
  {
    if pairs != [] {
      AllNonZeroShowsEach(pairs[..|pairs| - 1]);
    }
  }

  /** The number of lines is the number of non-zero readings. */
  function CountShown(pairs: seq<(string, Entry)>): nat {
    if pairs == [] then 0
    else CountShown(pairs[..|pairs| - 1]) + (if Shown(pairs[|pairs| - 1].1) then 1 else 0)
  }

  /** A reading line is shown for exactly the non-zero entries: one each, with its own sensor name and value. */
  lemma {:induction false} ReadingsAreShownEntries(pairs: seq<(string, Entry)>)
    ensures |Readings(pairs)| == CountShown(pairs)
    ensures forall l :: l in Readings(pairs) ==> exists k :: 0 <= k < |pairs| && Shown(pairs[k].1) && l == Reading(pairs[k].0, pairs[k].1.current)
    ensures forall k :: 0 <= k < |pairs| && Shown(pairs[k].1) ==> Reading(pairs[k].0, pairs[k].1.current) in Readings(pairs)
  {
    if pairs != [] {
      var init := pairs[..|pairs| - 1];
      ReadingsAreShownEntries(init);
      forall k | 0 <= k < |init| ensures init[k] == pairs[k] { }
    }
  }

  /** A platform without sensor support and one with no sensors are told apart, and a mapping with only zero readings shows no line. */
  lemma SpecialCases(sensors: seq<Sensor>)
    requires sensors != []
    requires forall k :: 0 <= k < |Flatten(sensors)| ==> Flatten(sensors)[k].1.current == 0.0
    ensures Lines(Unsupported) == [NotSupported]
    ensures Lines(Returned([])) == [NotAvailable]
    ensures Lines(Returned(sensors)) == []
  {
    AllZeroShowsNothing(Flatten(sensors));
  }
}

=== FILE: validation.dfy ===
/**
 * Command-line argument validation of the stress tester (`validate_args`).
 * Five bound checks run in a fixed order and the first failing one rejects;
 * two over-subscription checks afterwards only warn.
 */
module Validation {

  /** The parsed command line: the integer values of -c, -t, -i, -m and -s. */
  datatype Args = Args(cores: int, time: int, intensity: int, memoryProcesses: int, memorySize: int)

  /** The five rejections, one per bound check. */
  datatype ArgError =
    | CoresNotPositive
    | DurationNotPositive
    | IntensityNotPositive
    | MemoryProcessesNegative
    | MemorySizeNotPositive

  /** Over-subscription notices that never reject. */
  datatype Warning =
    | ManyCores(requested: int, available: int)
    | LargeMemory(sizeMb: int)

  datatype Verdict = Rejected(error: ArgError) | Accepted(warnings: seq<Warning>)

  /** Memory sizes above this many MB (per memory process) draw a warning. */
  const LargeMemoryMb: int := 1000

  /** Position of a check in the order in which they are run. */
  function Rank(e: ArgError): nat {
    match e
    case CoresNotPositive => 0
    case DurationNotPositive => 1
    case IntensityNotPositive => 2
    case MemoryProcessesNegative => 3
    case MemorySizeNotPositive => 4
  }

  /** The bound whose violation raises `e`. */
  predicate Meets(a: Args, e: ArgError) {
    match e
    case CoresNotPositive => a.cores > 0
    case DurationNotPositive => a.time > 0
    case IntensityNotPositive => a.intensity > 0
    case MemoryProcessesNegative => a.memoryProcesses >= 0
    case MemorySizeNotPositive => a.memorySize > 0
  }

  /** A configuration the stress test may run with. */
  predicate Valid(a: Args) {
    && a.cores > 0
    && a.time > 0
    && a.intensity > 0
    && a.memoryProcesses >= 0
    && a.memorySize > 0
  }

  /**
   * `validate_args` against a host with `hostCores` logical cores. Rejection
   * happens exactly for invalid arguments and names the first violated bound;
   * acceptance carries the warnings that would have been printed, in order.
   */
  function ValidateArgs(a: Args, hostCores: int): (v: Verdict)
    ensures v.Accepted? <==> Valid(a)
    ensures v.Rejected? ==> !Meets(a, v.error)
    ensures v.Rejected? ==> forall e :: Rank(e) < Rank(v.error) ==> Meets(a, e)
    ensures v.Accepted? ==> (ManyCores(a.cores, hostCores) in v.warnings <==> a.cores > hostCores)
    ensures v.Accepted? ==>
      (LargeMemory(a.memorySize) in v.warnings <==> a.memoryProcesses > 0 && a.memorySize > LargeMemoryMb)
    ensures v.Accepted? ==>
      forall w :: w in v.warnings ==> w == ManyCores(a.cores, hostCores) || w == LargeMemory(a.memorySize)
    ensures v.Accepted? ==> |v.warnings| <= 2 && (|v.warnings| == 2 ==> v.warnings[0].ManyCores?)
    ensures v.Accepted? ==> |v.warnings| == (if a.cores > hostCores then 1 else 0)
                                       + (if a.memoryProcesses > 0 && a.memorySize > LargeMemoryMb then 1 else 0)
  {
    if a.cores <= 0 then Rejected(CoresNotPositive)
    else if a.time <= 0 then Rejected(DurationNotPositive)
    else if a.intensity <= 0 then Rejected(IntensityNotPositive)
    else if a.memoryProcesses < 0 then Rejected(MemoryProcessesNegative)
    else if a.memorySize <= 0 then Rejected(MemorySizeNotPositive)
    else
      var cores := if a.cores > hostCores then [ManyCores(a.cores, hostCores)] else [];
      var memory := if a.memoryProcesses > 0 && a.memorySize > LargeMemoryMb then [LargeMemory(a.memorySize)] else [];
      Accepted(cores + memory)
  }

  /** The host's core count, and a memory size above 1000 MB, never decide acceptance. */
  lemma WarningsNeverReject(a: Args, hostCores: int, otherHost: int)
    requires Valid(a)
    ensures ValidateArgs(a, hostCores).Accepted?
    ensures ValidateArgs(a, hostCores).Accepted? == ValidateArgs(a, otherHost).Accepted?
  {
  }

  /** The smallest configuration is accepted; a value just outside each bound is rejected by its own check. */
  lemma BoundaryExamples(hostCores: int)
    ensures ValidateArgs(Args(1, 1, 1, 0, 1), hostCores).Accepted?
    ensures ValidateArgs(Args(0, 1, 1, 0, 1), hostCores) == Rejected(CoresNotPositive)
    ensures ValidateArgs(Args(1, -1, 1, 0, 1), hostCores) == Rejected(DurationNotPositive)
    ensures ValidateArgs(Args(1, 1, 0, 0, 1), hostCores) == Rejected(IntensityNotPositive)
    ensures ValidateArgs(Args(1, 1, 1, -1, 1), hostCores) == Rejected(MemoryProcessesNegative)
    ensures ValidateArgs(Args(1, 1, 1, 0, 0), hostCores) == Rejected(MemorySizeNotPositive)
  {
  }
}
